=== FILE: README.md ===
# Bit-level image transforms and the masking file

This project is a Dafny model of the core of `avance/main.cpp`, a small C++/Qt
program that works on RGB pixel buffers (3 bytes per pixel, no row padding).
The core has four parts:

- **Byte operations** (`ByteOps`). `shiftRight`, `shiftLeft`, `rotateRight` and
  `rotateLeft` act on one `unsigned char` and a bit count from 0 to 8. XOR is
  the fifth operation. Each operand is promoted to `int`, and the result is
  truncated back to 8 bits. The model writes both conversions out, using a
  16-bit window (`Promote`, `Truncate`), and states its arithmetic in the
  same 16-bit window, where nothing overflows. It proves these laws:
  - a right shift is division by 2^n;
  - a left shift is multiplication by 2^n modulo 256;
  - a rotation moves bit `i + n` (mod 8) to bit `i`;
  - left and right rotations by the same count undo each other;
  - rotating by 0 or 8 bits changes nothing;
  - XOR with the same key twice gives back the original.
- **Buffer transforms** (`BufferTransform`). `xorImages`, `shiftImage` and
  `rotateImage` apply one byte operation to each of the `width*height*3`
  bytes and return a fresh buffer. A null input gives no buffer. A null
  pointer is `None`.
- **The masking file** (`MaskFile`).
  - `enmascararYGuardar` (`MaskAndSave`) writes the offset `s`. Then, for
    each mask pixel, it writes the unclamped sums
    `imgTransformada[s+i+k] + mask[i+k]`.
  - `loadSeedMasking` (`LoadSeedMasking`) reads the seed. Next it counts the
    complete `r g b` groups before the first failed read. Then it returns
    those groups flattened, with each value converted to `unsigned int`.
  - The file is modelled as its sequence of whitespace-separated fields.
    Each read follows the C++ `operator>>` rules for `int`: a non-numeral
    field stores 0, an out-of-range numeral stores the nearest bound, and
    end of input stores nothing. After a failed read the stream stays
    failed.
  - Reading back a written file gives the same seed and the same sums in
    the same order.
- **The check at the end of `main`** (`MaskCheck`). A loop compares the
  transformed image, triple by triple from byte 0, with the loaded values
  and stops at the first pixel that differs. The model proves what this
  loop means when the file was made from the same image:
  - pixel `k` agrees only when `img[3k+c] == img[s+3k+c] + mask[3k+c]` for
    each channel `c`;
  - with offset 0, pixel `k` agrees only where the mask is black.

Some behaviours of the code are worth stating on their own:
- Bit counts outside 0..8 and buffers shorter than `width*height*3` are
  preconditions. The code checks neither.
- An empty mask file keeps the caller's seed and yields no pixels. A
  non-numeral first field yields seed 0, and a numeral outside the `int`
  range yields the nearest `int` bound; both yield no pixels. In every
  case the array is still returned.
- The check at main.cpp:245-258 compares raw image bytes with the stored
  sums, both from index 0. It stops at the first mismatch and keeps no
  report of later ones. So "generate, then verify the same image" passes
  only under the condition above, not in general.

## Model

| member | source | states |
|---|---|---|
| ByteOps.ShiftRight | avance/main.cpp:550-552 | after int promotion and truncation, `byte >> bits` is the byte divided by 2^bits, so it is 0 when bits is 8 |
| ByteOps.ShiftLeft | avance/main.cpp:554-556 | `byte << bits` truncated to `unsigned char` is the byte times 2^bits modulo 256 |
| ByteOps.RotateRight | avance/main.cpp:593-595 | bit `i` of the OR of `byte >> bits` and `byte << (8 - bits)`, truncated to a byte, is bit `i + bits` (mod 8) of the input |
| ByteOps.RotateLeft | avance/main.cpp:597-599 | bit `i` of the input lands on bit `i + bits` (mod 8) of the OR of `byte << bits` and `byte >> (8 - bits)`, truncated to a byte |
| ByteOps.Xor | avance/main.cpp:543 | a bit of `img1[i] ^ img2[i]` is set exactly when one of the two operand bits is set |
| ByteOps.XorSelfInverse | avance/main.cpp:543 | XOR with the same key twice gives the byte back; XOR is commutative; a byte XOR itself is 0 |
| ByteOps.ShiftBoundaries | avance/main.cpp:550-556 | shifting by 8 clears the byte in both directions; shifting by 0 leaves it unchanged |
| ByteOps.RotateRoundTrip | avance/main.cpp:593-599 | `rotateLeft(rotateRight(b,n),n) == b` and `rotateRight(rotateLeft(b,n),n) == b` for every byte and every n in 0..8 |
| ByteOps.RotateBoundaryIdentity | avance/main.cpp:593-599 | rotating by 0 or by 8 bits in either direction is the identity: the half shifted by 8 (`byte << 8` truncated, or `byte >> 8`) is 0 and the half shifted by 0 is the byte |
| BufferTransform.XorImages | avance/main.cpp:512-547 | no buffer if either input is null; otherwise `width*height*3` bytes with `result[i] == img1[i] ^ img2[i]` |
| BufferTransform.ShiftImage | avance/main.cpp:558-591 | no buffer for a null input; otherwise `width*height*3` bytes, byte i being input byte i divided by 2^bits (right) or times 2^bits modulo 256 (left) |
| BufferTransform.RotateImage | avance/main.cpp:601-634 | no buffer for a null input; otherwise `width*height*3` bytes, byte i being input byte i rotated in the direction the flag selects |
| BufferTransform.XorImagesRoundTrip | avance/main.cpp:531-546 | XOR-ing an image twice with the same key image restores it |
| BufferTransform.RotateImageRoundTrip | avance/main.cpp:614-633 | rotating an image one way and then the other by the same count restores it |
| BufferTransform.RotateImageBoundaryIdentity | avance/main.cpp:614-633 | rotating an image by 0 or 8 bits copies it |
| BufferTransform.ShiftImageByEightClears | avance/main.cpp:571-590 | shifting an image by 8 bits in either direction yields an all-zero buffer |
| MaskFile.ExtractInt | avance/main.cpp:466 | reading an `int` field succeeds exactly for numerals in the 32-bit range and then stores the numeral; a non-numeral stores 0; a numeral below or above the range stores `INT_MIN` or `INT_MAX` |
| MaskFile.ToUnsigned | avance/main.cpp:496-498 | storing an `int` in an `unsigned int` keeps a value in 0..2^32-1 and adds 2^32 to a negative value |
| MaskFile.MaskSums | avance/main.cpp:658-665 | the loop from byte i emits `maskDataSize - i` values, the one at j being `imgTransformada[s+i+j] + mask[i+j]` |
| MaskFile.MaskAndSave | avance/main.cpp:636-668 | nothing is written exactly when the image is smaller than the mask or the file cannot be opened; otherwise `s` comes first, then `maskDataSize` unclamped sums in order, each in 0..510 |
| MaskFile.CountTriples | avance/main.cpp:468-474 | the count is the number of complete readable triples before the first failing `>> r >> g >> b` |
| MaskFile.LoadSeedMasking | avance/main.cpp:437-510 | no array for a file that cannot be opened; otherwise the seed from the first field, `n_pixels` complete triples after it, and `n_pixels*3` values in R,G,B order, each the field's value as `unsigned int` |
| MaskFile.LoadDropsPartialTriple | avance/main.cpp:470-474 | when all fields are numbers, `n_pixels` is the number of whole triples after the seed; a trailing 1 or 2 fields are dropped |
| MaskFile.MaskFileRoundTrip | avance/main.cpp:655-665 | reading back the written file gives the offset `s`, `maskWidth*maskHeight` pixels, and the written sums in order |
| MaskCheck.FindMismatch | avance/main.cpp:245-258 | the result is the first pixel index k whose triple at bytes 3k..3k+2 differs, with all earlier triples equal, or none when all `n_pixels` agree |
| MaskCheck.CheckAgainstOwnMask | avance/main.cpp:237-258 | for a file generated from the same image, pixel k agrees exactly when each byte equals the byte s positions later plus the mask byte |
| MaskCheck.CheckAtOffsetZeroNeedsBlackMask | avance/main.cpp:237-258 | with offset 0, pixel k of the generating image agrees exactly when the mask pixel k is black |
| Scenarios.ShiftRightByThreeExample | avance/main.cpp:582-588 | `[10,20,30,40,50,60]` shifted right by 3 is `[1,2,3,5,6,7]` |
| Scenarios.MaskOnePixelExample | avance/main.cpp:655-665 | a 1x1 mask `[1,2,3]` over bytes of 5 at offset 0 writes `0` then `6 7 8` |
| Scenarios.MaskEmptyExample | avance/main.cpp:643-665 | an empty mask writes only the offset, even an offset of 15 over an empty image or of -1 |
| Scenarios.LoadTwoPixelsExample | avance/main.cpp:465-499 | the fields `2 1 2 3 4 5 6` load as seed 2, two pixels, values 1..6 |
| Scenarios.LoadIrregularFilesExample | avance/main.cpp:465-499 | a stray trailing field is dropped, a non-numeric seed gives seed 0 and no pixels, a seed of 2^32 gives `INT_MAX` and no pixels, and an empty file keeps the caller's seed |

## Left out

- `loadPixels`, `loadPixelsMask` and `exportImage` (main.cpp:290-435) are thin wrappers over Qt's `QImage`, which is not part of this model. Images enter the model as byte sequences.
- Console output (`cout`, `cerr`) is left out. File opening and closing are reduced to a `canOpen` flag for the output file, and an absent input file is `None`.
- The second opening of the masking file in `loadSeedMasking` (main.cpp:476-484) is left out. It re-reads the same fields, so the model reads them once. A failure of that reopen, which would return a null pointer, is not modelled.
- `delete[]`, the order of calls in `main`, and the commented-out experiment blocks (main.cpp:94-210) are left out.
- MaskCheck.FindMismatch: the image export and console output done for each agreeing pixel (main.cpp:253-256) are I/O and are not modelled. Only the search for the first mismatch is.
- MaskFile.LoadSeedMasking: `n_pixels` is incremented without being reset (main.cpp:473). The code therefore relies on the caller passing 0, as `main` does at main.cpp:77. The model always counts from 0.
- MaskFile.MaskAndSave: the size guard at main.cpp:643 ignores `s`. For a non-empty mask, an offset that is negative or has `s + maskDataSize` beyond the image reads out of bounds in the source, so the model makes `0 <= s && s + maskDataSize <= |imgTransformada|` a precondition whenever the guard passes and the file opens. An empty mask reads nothing, so any offset is accepted and only `s` is written.
- 32-bit overflow of `width*height*3`, `maskWidth*maskHeight*3` and `n_pixels*3` is not modelled. Widths and heights are natural numbers, and the products are exact. An overflow needs an image, mask or masking file of more than 715 million pixels (3 bytes each exceeds 2^31 - 1).
- Bit counts outside 0..8 are left out, because the comment at main.cpp:233 limits bit counts to 8. The source does not reject them, and they behave as follows. A negative count or a count of 32 or more is undefined behaviour for both shifts. `shiftRight` by 9..31 is defined and returns 0, because the byte is promoted to `int` first. `shiftLeft` by 9..23 is defined and truncates to 0, and larger counts can overflow `int`, which is undefined. A rotation by more than 8 bits makes `8 - bits` negative (main.cpp:594, main.cpp:598), which is undefined.
- Fields that begin with a numeral and continue with other characters (such as `12abc`) are not modelled. A field is either a whole decimal numeral or not a numeral at all.
- The line layout of the written file (`endl`, single spaces) is not modelled. Only the order of the fields is.

=== FILE: buffer_transform.dfy ===
/**
 The whole-image transforms: each applies one byte operation to every byte of
 an RGB buffer (3 bytes per pixel, no row padding) and returns a fresh buffer
 of `width * height * 3` bytes, or no buffer at all when an input pointer is
 null. Output byte `i` depends only on input byte `i`; the R, G and B
 channels are treated alike.
 */
module BufferTransform {
  import opened ByteOps
  import opened Wrappers

  type Buffer = seq<Byte>

  /** `width * height * 3`: the bytes of an RGB image without row padding. */
  function DataSize(width: nat, height: nat): nat {
    width * height * 3
  }

  /** A buffer that is present holds at least the `size` bytes the loops read. */
  predicate Holds(img: Option<Buffer>, size: nat) {
    img.Some? ==> size <= |img.value|
  }

  /** `xorImages`: byte-wise XOR of two images. */
  function XorImages(img1: Option<Buffer>, img2: Option<Buffer>, width: nat, height: nat): (r: Option<Buffer>)
    requires img1.Some? && img2.Some? ==> Holds(img1, DataSize(width, height)) && Holds(img2, DataSize(width, height))
    ensures r.None? <==> img1.None? || img2.None?
    ensures r.Some? ==> |r.value| == DataSize(width, height)
    ensures r.Some? ==> forall i :: 0 <= i < |r.value| ==> r.value[i] == Xor(img1.value[i], img2.value[i])
  {
    if img1.None? || img2.None? then None
    else
      var a, b := img1.value, img2.value;
      Some(seq(DataSize(width, height), i requires 0 <= i < DataSize(width, height) => Xor(a[i], b[i])))
  }

  /** `shiftImage`: every byte shifted right (`right`) or left by `bits`. */
  function ShiftImage(img: Option<Buffer>, width: nat, height: nat, bits: BitCount, right: bool): (r: Option<Buffer>)
    requires Holds(img, DataSize(width, height))
    ensures r.None? <==> img.None?
    ensures r.Some? ==> |r.value| == DataSize(width, height)
    ensures r.Some? && right ==> forall i :: 0 <= i < |r.value| ==> r.value[i] as bv16 == (img.value[i] as bv16) / Pow2(bits)
    ensures r.Some? && !right ==> forall i :: 0 <= i < |r.value| ==> r.value[i] as bv16 == (img.value[i] as bv16) * Pow2(bits) % 256
  {
    if img.None? then None
    else
      var a := img.value;
      Some(seq(DataSize(width, height), i requires 0 <= i < DataSize(width, height) =>
        if right then ShiftRight(a[i], bits) else ShiftLeft(a[i], bits)))
  }

  /** `rotateImage`: the bits of every byte rotated right (`right`) or left by `bits`. */
  function RotateImage(img: Option<Buffer>, width: nat, height: nat, bits: BitCount, right: bool): (r: Option<Buffer>)
    requires Holds(img, DataSize(width, height))
    ensures r.None? <==> img.None?
    ensures r.Some? ==> |r.value| == DataSize(width, height)
    ensures r.Some? ==> forall i :: 0 <= i < |r.value| ==>
      r.value[i] == if right then RotateRight(img.value[i], bits) else RotateLeft(img.value[i], bits)
  {
    if img.None? then None
    else
      var a := img.value;
      Some(seq(DataSize(width, height), i requires 0 <= i < DataSize(width, height) =>
        if right then RotateRight(a[i], bits) else RotateLeft(a[i], bits)))
  }

  /** XOR-ing twice with the same key image gives back the first image. */
  lemma XorImagesRoundTrip(img: Buffer, key: Buffer, width: nat, height: nat)
    requires |img| == DataSize(width, height) <= |key|
    ensures XorImages(XorImages(Some(img), Some(key), width, height), Some(key), width, height) == Some(img)
  {
    var once := XorImages(Some(img), Some(key), width, height);
    var twice := XorImages(once, Some(key), width, height);
    forall i | 0 <= i < |img|
      ensures twice.value[i] == img[i]
    {
      XorSelfInverse(img[i], key[i]);
    }
    assert twice.value == img;
  }

  /** A rotation of the whole image is undone by the opposite rotation by the same count. */
  lemma RotateImageRoundTrip(img: Buffer, width: nat, height: nat, bits: BitCount, right: bool)
    requires |img| == DataSize(width, height)
    ensures RotateImage(RotateImage(Some(img), width, height, bits, right), width, height, bits, !right) == Some(img)
  {
    var once := RotateImage(Some(img), width, height, bits, right);
    var back := RotateImage(once, width, height, bits, !right);
    forall i | 0 <= i < |img|
      ensures back.value[i] == img[i]
    {
      RotateRoundTrip(img[i], bits);
    }
    assert back.value == img;
  }

  /** Rotating by 0 or by 8 bits copies the image. */
  lemma RotateImageBoundaryIdentity(img: Buffer, width: nat, height: nat, bits: BitCount, right: bool)
    requires |img| == DataSize(width, height)
    requires bits == 0 || bits == 8
    ensures RotateImage(Some(img), width, height, bits, right) == Some(img)
  {
    var r := RotateImage(Some(img), width, height, bits, right);
    forall i | 0 <= i < |img|
      ensures r.value[i] == img[i]
    {
      RotateBoundaryIdentity(img[i], bits);
    }
    assert r.value == img;
  }

  /** Shifting by 8 bits, in either direction, clears every byte. */
  lemma ShiftImageByEightClears(img: Buffer, width: nat, height: nat, right: bool)
    requires |img| == DataSize(width, height)
    ensures ShiftImage(Some(img), width, height, 8, right) == Some(seq(|img|, i => 0))
  {
    var r := ShiftImage(Some(img), width, height, 8, right);
    forall i | 0 <= i < |img|
      ensures r.value[i] == 0
    {
      ShiftBoundaries(img[i]);
    }
    assert r.value == seq(|img|, i => 0);
  }
}

=== FILE: byte_ops.dfy ===
/**
 The per-byte primitives of the image pipeline: XOR, logical shift and bit
 rotation of one `unsigned char` by 0 to 8 bits.

 In the source every operand is promoted to `int` before `>>`, `<<` or `|`
 is applied, and the result is truncated back to 8 bits on return. A byte
 shifted left by at most 8 bits stays below 2^16, so a 16-bit window holds
 the promoted value exactly; `Promote` and `Truncate` make the two
 conversions explicit. That promotion is what gives a shift or rotation by
 0 or by 8 a defined meaning. The arithmetic the contracts state is done in
 the same 16-bit window, where no product or quotient of a byte and 2^n can
 overflow.
 */
module ByteOps {

  type Byte = bv8

  /**
   A bit count from 0 to 8, the limit stated at main.cpp:98 and main.cpp:233;
   the source does not reject larger counts. It is kept as an 8-bit value so
   that shift amounts stay in bitvector arithmetic.
   */
  type BitCount = n: bv8 | n <= 8

  /** 2^n, in the 16-bit window, as a table of the nine powers. */
  function Pow2(n: BitCount): bv16 {
    [1, 2, 4, 8, 16, 32, 64, 128, 256][n as int]
  }

  /** Bit `i` (0 = least significant) of a byte. */
  predicate Bit(b: Byte, i: bv8)
    requires i < 8
  {
    (b >> i) & 1 == 1
  }

  /** Integer promotion of an `unsigned char` operand. */
  function Promote(b: Byte): bv16 {
    b as bv16
  }

  /** Conversion of an `int` result back to `unsigned char`: the value modulo 256. */
  function Truncate(x: bv16): Byte {
    (x % 256) as bv8
  }

  /** `img1[i] ^ img2[i]`: a bit of the result is set when exactly one operand has it set. */
  function Xor(a: Byte, b: Byte): (r: Byte)
    ensures forall i: bv8 :: i < 8 ==> (Bit(r, i) <==> Bit(a, i) != Bit(b, i))
  {
    a ^ b
  }

  /** `byte >> bits`: division by 2^bits, hence 0 when bits is 8. */
  function ShiftRight(b: Byte, n: BitCount): (r: Byte)
    ensures r as bv16 == (b as bv16) / Pow2(n)
  {
    Truncate(Promote(b) >> n)
  }

  /** `byte << bits` truncated to a byte: multiplication by 2^bits modulo 256. */
  function ShiftLeft(b: Byte, n: BitCount): (r: Byte)
    ensures r as bv16 == (b as bv16) * Pow2(n) % 256
  {
    Truncate(Promote(b) << n)
  }

  /** `(byte >> bits) | (byte << (8 - bits))`: bit `i` of the result is bit `i + bits` (mod 8) of the input. */
  function RotateRight(b: Byte, n: BitCount): (r: Byte)
    ensures forall i: bv8 :: i < 8 ==> Bit(r, i) == Bit(b, (i + n) % 8)
  {
    Truncate((Promote(b) >> n) | (Promote(b) << (8 - n)))
  }

  /** `(byte << bits) | (byte >> (8 - bits))`: bit `i` of the input lands on bit `i + bits` (mod 8). */
  function RotateLeft(b: Byte, n: BitCount): (r: Byte)
    ensures forall i: bv8 :: i < 8 ==> Bit(r, (i + n) % 8) == Bit(b, i)
  {
    Truncate((Promote(b) << n) | (Promote(b) >> (8 - n)))
  }

  lemma XorSelfInverse(a: Byte, k: Byte)
    ensures Xor(Xor(a, k), k) == a
    ensures Xor(a, a) == 0
    ensures Xor(a, k) == Xor(k, a)
  {
  }

  /** Shifting by 8 in either direction clears the byte; shifting by 0 leaves it alone. */
  lemma ShiftBoundaries(b: Byte)
    ensures ShiftRight(b, 8) == 0 && ShiftLeft(b, 8) == 0
    ensures ShiftRight(b, 0) == b && ShiftLeft(b, 0) == b
  {
  }

  /** Rotating left undoes rotating right by the same count, and vice versa. */
  lemma RotateRoundTrip(b: Byte, n: BitCount)
    ensures RotateLeft(RotateRight(b, n), n) == b
    ensures RotateRight(RotateLeft(b, n), n) == b
  {
  }

  /** A rotation by 0 or by 8 bits, in either direction, leaves the byte unchanged. */
  lemma RotateBoundaryIdentity(b: Byte, n: BitCount)
    requires n == 0 || n == 8
    ensures RotateRight(b, n) == b && RotateLeft(b, n) == b
  {
  }
}

=== FILE: mask_check.dfy ===
/**
 The consistency check at the end of `main`: the transformed image is
 compared, triple by triple, with the values read from the masking file, and
 the scan stops at the first pixel that differs. Both sides are indexed from
 byte 0 of their buffers; the offset stored in the file plays no part.
 */
module MaskCheck {
  import opened Wrappers
  import opened BufferTransform
  import opened MaskFile

  /** Pixel `k` of the image equals triple `k` of the loaded values, channel by channel. */
  predicate TripleMatches(pixels: Buffer, data: seq<Unsigned>, k: nat)
    requires 3 * k + 3 <= |pixels| && 3 * k + 3 <= |data|
  {
    && pixels[3 * k] as int == data[3 * k]
    && pixels[3 * k + 1] as int == data[3 * k + 1]
    && pixels[3 * k + 2] as int == data[3 * k + 2]
  }

  /**
   The loop `for (i = 0; i < n_pixels * 3; i += 3)`: the index of the first
   pixel whose triple differs, or `None` when the first `nPixels` all agree.
   The image export done for each agreeing pixel is not modelled.
   */
  method FindMismatch(pixels: Buffer, data: seq<Unsigned>, nPixels: nat) returns (mismatch: Option<nat>)
    requires 3 * nPixels <= |pixels| && 3 * nPixels <= |data|
    ensures mismatch.Some? ==> mismatch.value < nPixels && !TripleMatches(pixels, data, mismatch.value)
    ensures mismatch.Some? ==> forall k :: 0 <= k < mismatch.value ==> TripleMatches(pixels, data, k)
    ensures mismatch.None? ==> forall k :: 0 <= k < nPixels ==> TripleMatches(pixels, data, k)
  {
    var i := 0;
    while i < nPixels * 3
      invariant i % 3 == 0 && i <= nPixels * 3
      invariant forall k :: 0 <= k < i / 3 ==> TripleMatches(pixels, data, k)
    {
      if pixels[i] as int != data[i] || pixels[i + 1] as int != data[i + 1] || pixels[i + 2] as int != data[i + 2] {
        return Some(i / 3);
      }
      i := i + 3;
    }
    return None;
  }

  /**
   Checking an image against the file generated from it: pixel `k` agrees
   exactly when each of its bytes equals the byte `s` positions later plus
   the mask byte, because the check reads the image from byte 0 while the
   file holds sums taken from byte `s` on.
   */
  lemma CheckAgainstOwnMask(imgT: Buffer, imgWidth: nat, imgHeight: nat,
                            mask: Buffer, maskWidth: nat, maskHeight: nat,
                            s: Int32, priorSeed: Int32, k: nat)
    requires DataSize(maskWidth, maskHeight) <= |mask|
    requires DataSize(maskWidth, maskHeight) <= DataSize(imgWidth, imgHeight)
    requires 0 <= s && s + DataSize(maskWidth, maskHeight) <= |imgT|
    requires k < maskWidth * maskHeight
    ensures var loaded := LoadSeedMasking(MaskAndSave(imgT, imgWidth, imgHeight, mask, maskWidth, maskHeight, s, true), priorSeed).value;
            && 3 * k + 3 <= |loaded.data|
            && (TripleMatches(imgT, loaded.data, k) <==>
                && imgT[3 * k] as int == imgT[s + 3 * k] as int + mask[3 * k] as int
                && imgT[3 * k + 1] as int == imgT[s + 3 * k + 1] as int + mask[3 * k + 1] as int
                && imgT[3 * k + 2] as int == imgT[s + 3 * k + 2] as int + mask[3 * k + 2] as int)
  {
    MaskFileRoundTrip(imgT, imgWidth, imgHeight, mask, maskWidth, maskHeight, s, priorSeed);
    var loaded := LoadSeedMasking(MaskAndSave(imgT, imgWidth, imgHeight, mask, maskWidth, maskHeight, s, true), priorSeed).value;
    assert 3 * k + 3 <= DataSize(maskWidth, maskHeight);
    assert loaded.data[3 * k] == imgT[s + 3 * k] as int + mask[3 * k] as int;
    assert loaded.data[3 * k + 1] == imgT[s + 3 * k + 1] as int + mask[3 * k + 1] as int;
    assert loaded.data[3 * k + 2] == imgT[s + 3 * k + 2] as int + mask[3 * k + 2] as int;
  }

  /**
   With offset 0 the check passes on pixel `k` of the image it was generated
   from only when the mask is black there: any non-zero mask byte makes the
   sum exceed the image byte.
   */
  lemma CheckAtOffsetZeroNeedsBlackMask(imgT: Buffer, imgWidth: nat, imgHeight: nat,
                                        mask: Buffer, maskWidth: nat, maskHeight: nat,
                                        priorSeed: Int32, k: nat)
    requires DataSize(maskWidth, maskHeight) <= |mask|
    requires DataSize(maskWidth, maskHeight) <= DataSize(imgWidth, imgHeight)
    requires DataSize(maskWidth, maskHeight) <= |imgT|
    requires k < maskWidth * maskHeight
    ensures var loaded := LoadSeedMasking(MaskAndSave(imgT, imgWidth, imgHeight, mask, maskWidth, maskHeight, 0, true), priorSeed).value;
            && 3 * k + 3 <= |loaded.data|
            && (TripleMatches(imgT, loaded.data, k) <==> mask[3 * k] == 0 && mask[3 * k + 1] == 0 && mask[3 * k + 2] == 0)
  {
    CheckAgainstOwnMask(imgT, imgWidth, imgHeight, mask, maskWidth, maskHeight, 0, priorSeed, k);
    assert mask[3 * k] == 0 <==> mask[3 * k] as int == 0;
    assert mask[3 * k + 1] == 0 <==> mask[3 * k + 1] as int == 0;
    assert mask[3 * k + 2] == 0 <==> mask[3 * k + 2] as int == 0;
  }
}

=== FILE: mask_file.dfy ===
/**
 The masking text file: `MaskAndSave` writes it and `LoadSeedMasking` reads
 it back.

 The file is a whitespace-separated list of decimal fields: the offset `s`,
 then one `r g b` line per mask pixel. Its text is modelled as the sequence
 of fields it holds. Printing an `int` yields a field that reads back as
 that number, and line breaks count as whitespace. Reading a field with
 `stream >> x` (`x` an `int`) follows the C++ extraction rules:
 - a field that is not a numeral stores 0 and fails the stream;
 - a numeral outside the `int` range stores the nearest bound and fails the stream;
 - at end of input nothing is stored and the stream fails.
 Once the stream has failed, every later read fails too.
 */
module MaskFile {
  import opened Wrappers
  import opened BufferTransform

  const IntMin: int := -0x8000_0000
  const IntMax: int := 0x7FFF_FFFF

  /** A 32-bit `int`. */
  type Int32 = x: int | IntMin <= x <= IntMax

  /** A 32-bit `unsigned int`. */
  type Unsigned = x: int | 0 <= x < 0x1_0000_0000

  /** One whitespace-separated field of the file: a decimal numeral, or anything else. */
  datatype Token = Numeral(value: int) | Word

  /** What one `stream >> x` does with a field: whether it succeeded and what it stored. */
  datatype Extraction = Extraction(ok: bool, value: Int32)

  function ExtractInt(t: Token): (e: Extraction)
    ensures e.ok <==> t.Numeral? && IntMin <= t.value <= IntMax
    ensures e.ok ==> e.value == t.value
    ensures t.Word? ==> e.value == 0
    ensures t.Numeral? && t.value < IntMin ==> e.value == IntMin
    ensures t.Numeral? && IntMax < t.value ==> e.value == IntMax
  {
    match t
    case Word => Extraction(false, 0)
    case Numeral(v) =>
      if v < IntMin then Extraction(false, IntMin)
      else if IntMax < v then Extraction(false, IntMax)
      else Extraction(true, v)
  }

  predicate Readable(t: Token) {
    ExtractInt(t).ok
  }

  /** Conversion of an `int` to `unsigned int`: the value modulo 2^32. */
  function ToUnsigned(v: int): (u: Unsigned)
    ensures 0 <= v < 0x1_0000_0000 ==> u == v
    ensures v < 0 && -0x1_0000_0000 <= v ==> u == v + 0x1_0000_0000
  {
    v % 0x1_0000_0000
  }

  /** Three readable fields start at position `k`: one `stream >> r >> g >> b` succeeds there. */
  predicate CompleteTripleAt(tokens: seq<Token>, k: nat) {
    k + 3 <= |tokens| && Readable(tokens[k]) && Readable(tokens[k + 1]) && Readable(tokens[k + 2])
  }

  // ---------------------------------------------------------------------------
  // Writing: enmascararYGuardar
  // ---------------------------------------------------------------------------

  /**
   The lines the loop over the mask writes from byte `i` on: for each pixel,
   the three unclamped sums `imgT[s + i + k] + mask[i + k]`.
   */
  function MaskSums(imgT: Buffer, mask: Buffer, s: nat, i: nat, maskSize: nat): (out: seq<Token>)
    requires i <= maskSize && (maskSize - i) % 3 == 0
    requires s + maskSize <= |imgT| && maskSize <= |mask|
    ensures |out| == maskSize - i
    ensures forall j :: 0 <= j < |out| ==> out[j] == Numeral(imgT[s + i + j] as int + mask[i + j] as int)
    decreases maskSize - i
  {
    if i < maskSize then
      [Numeral(imgT[s + i] as int + mask[i] as int),
       Numeral(imgT[s + i + 1] as int + mask[i + 1] as int),
       Numeral(imgT[s + i + 2] as int + mask[i + 2] as int)]
      + MaskSums(imgT, mask, s, i + 3, maskSize)
    else
      []
  }

  /**
   `enmascararYGuardar`: nothing is written when the image has fewer bytes
   than the mask or the output cannot be opened; otherwise the file holds
   `s` followed by one sum triple per mask pixel.

   The size guard ignores `s`, so for a non-empty mask the reads stay in
   bounds only because the caller keeps `s + maskSize` within the image; that
   is this function's precondition. An empty mask reads nothing, and the file
   holds `s` alone.
   */
  function MaskAndSave(imgT: Buffer, imgWidth: nat, imgHeight: nat,
                       mask: Buffer, maskWidth: nat, maskHeight: nat,
                       s: Int32, canOpen: bool): (file: Option<seq<Token>>)
    requires DataSize(maskWidth, maskHeight) <= |mask|
    requires 0 < DataSize(maskWidth, maskHeight) <= DataSize(imgWidth, imgHeight) && canOpen ==>
               0 <= s && s + DataSize(maskWidth, maskHeight) <= |imgT|
    ensures file.None? <==> DataSize(imgWidth, imgHeight) < DataSize(maskWidth, maskHeight) || !canOpen
    ensures file.Some? ==> |file.value| == 1 + DataSize(maskWidth, maskHeight)
    ensures file.Some? ==> file.value[0] == Numeral(s)
    ensures file.Some? ==> forall i :: 0 <= i < DataSize(maskWidth, maskHeight) ==>
              file.value[1 + i] == Numeral(imgT[s + i] as int + mask[i] as int)
              && 0 <= file.value[1 + i].value <= 510
  {
    var maskSize := DataSize(maskWidth, maskHeight);
    if DataSize(imgWidth, imgHeight) < maskSize then None
    else if !canOpen then None
    else if maskSize == 0 then Some([Numeral(s)])
    else Some([Numeral(s)] + MaskSums(imgT, mask, s, 0, maskSize))
  }

  // ---------------------------------------------------------------------------
  // Reading: loadSeedMasking
  // ---------------------------------------------------------------------------

  /** The seed, the pixel count and the values `loadSeedMasking` hands back. */
  datatype Masking = Masking(seed: Int32, pixels: nat, data: seq<Unsigned>)

  /**
   The counting pass `while (archivo >> r >> g >> b) n_pixels++`: the number
   of complete triples before the first failing read.
   */
  function CountTriples(tokens: seq<Token>): (n: nat)
    ensures 3 * n <= |tokens|
    ensures forall j :: 0 <= j < n ==> CompleteTripleAt(tokens, 3 * j)
    ensures !CompleteTripleAt(tokens, 3 * n)
    decreases |tokens|
  {
    if CompleteTripleAt(tokens, 0) then
      var rest := tokens[3..];
      var m := CountTriples(rest);
      forall j | 0 < j <= m
        ensures CompleteTripleAt(tokens, 3 * j)
      {
        assert CompleteTripleAt(rest, 3 * (j - 1));
      }
      1 + m
    else
      0
  }

  /**
   `loadSeedMasking`: no array when the file cannot be opened; otherwise the
   seed from the first field, the number of complete triples after it, and
   those triples flattened in R, G, B order. A trailing group of one or two
   fields is dropped. When the seed itself cannot be read the stream has
   failed, so no triples are counted.
   */
  function LoadSeedMasking(file: Option<seq<Token>>, priorSeed: Int32): (r: Option<Masking>)
    ensures r.None? <==> file.None?
    ensures r.Some? ==> |r.value.data| == 3 * r.value.pixels
    ensures r.Some? && |file.value| == 0 ==> r.value == Masking(priorSeed, 0, [])
    ensures r.Some? && 0 < |file.value| ==> r.value.seed == ExtractInt(file.value[0]).value
    ensures r.Some? && 0 < |file.value| && !Readable(file.value[0]) ==> r.value.pixels == 0
    ensures r.Some? && 0 < |file.value| && Readable(file.value[0]) ==>
              (forall j :: 0 <= j < r.value.pixels ==> CompleteTripleAt(file.value, 1 + 3 * j))
              && !CompleteTripleAt(file.value, 1 + 3 * r.value.pixels)
    ensures r.Some? ==> forall i :: 0 <= i < |r.value.data| ==>
              1 + i < |file.value| && Readable(file.value[1 + i]) && r.value.data[i] == ToUnsigned(file.value[1 + i].value)
  {
    if file.None? then None
    else
      var tokens := file.value;
      if |tokens| == 0 then Some(Masking(priorSeed, 0, []))
      else
        var first := ExtractInt(tokens[0]);
        if !first.ok then Some(Masking(first.value, 0, []))
        else
          var rest := tokens[1..];
          var n := CountTriples(rest);
          assert forall i :: 0 <= i < 3 * n ==> Readable(rest[i]) by {
            forall i | 0 <= i < 3 * n
              ensures Readable(rest[i])
            {
              assert CompleteTripleAt(rest, 3 * (i / 3));
            }
          }
          Some(Masking(first.value, n, seq(3 * n, i requires 0 <= i < 3 * n => ToUnsigned(rest[i].value))))
  }

  // ---------------------------------------------------------------------------
  // Properties of the format
  // ---------------------------------------------------------------------------

  /**
   When every field after the seed is a readable number, the pixel count is
   the number of whole triples: a trailing one or two fields are ignored.
   */
  lemma LoadDropsPartialTriple(tokens: seq<Token>, priorSeed: Int32)
    requires 0 < |tokens|
    requires forall i :: 0 <= i < |tokens| ==> Readable(tokens[i])
    ensures LoadSeedMasking(Some(tokens), priorSeed).value.pixels == (|tokens| - 1) / 3
  {
  }

  /**
   Reading back what `MaskAndSave` wrote gives the same seed, one pixel per
   mask pixel, and every written sum in its original order.
   */
  lemma MaskFileRoundTrip(imgT: Buffer, imgWidth: nat, imgHeight: nat,
                          mask: Buffer, maskWidth: nat, maskHeight: nat,
                          s: Int32, priorSeed: Int32)
    requires DataSize(maskWidth, maskHeight) <= |mask|
    requires DataSize(maskWidth, maskHeight) <= DataSize(imgWidth, imgHeight)
    requires 0 < DataSize(maskWidth, maskHeight) ==> 0 <= s && s + DataSize(maskWidth, maskHeight) <= |imgT|
    ensures var loaded := LoadSeedMasking(MaskAndSave(imgT, imgWidth, imgHeight, mask, maskWidth, maskHeight, s, true), priorSeed);
            && loaded.Some?
            && loaded.value.seed == s
            && loaded.value.pixels == maskWidth * maskHeight
            && |loaded.value.data| == DataSize(maskWidth, maskHeight)
            && forall i :: 0 <= i < DataSize(maskWidth, maskHeight) ==>
                 loaded.value.data[i] == imgT[s + i] as int + mask[i] as int
  {
    // Dafny can find this proof unaided on some solver seeds but not on all;
    // the steps below keep it within bounds on every one.
    var pixels := maskWidth * maskHeight;
    var maskSize := DataSize(maskWidth, maskHeight);
    assert maskSize == 3 * pixels;
    var file := MaskAndSave(imgT, imgWidth, imgHeight, mask, maskWidth, maskHeight, s, true);
    var tokens := file.value;
    assert |tokens| == 1 + 3 * pixels;
    forall i | 0 <= i < |tokens|
      ensures Readable(tokens[i])
    {
      if 0 < i {
        assert tokens[i] == Numeral(imgT[s + i - 1] as int + mask[i - 1] as int);
      }
    }
    LoadDropsPartialTriple(tokens, priorSeed);
    var loaded := LoadSeedMasking(file, priorSeed).value;
    assert loaded.pixels == pixels;
    assert |loaded.data| == maskSize;
    forall i | 0 <= i < maskSize
      ensures loaded.data[i] == imgT[s + i] as int + mask[i] as int
    {
      var sum := imgT[s + i] as int + mask[i] as int;
      assert tokens[1 + i] == Numeral(sum) && 0 <= sum <= 510;
      assert loaded.data[i] == ToUnsigned(tokens[1 + i].value);
      assert ToUnsigned(sum) == sum;
    }
  }
}

=== FILE: scenarios.dfy ===
/** Worked examples of the pipeline on small concrete buffers and files. */
module Scenarios {
  import opened Wrappers
  import opened BufferTransform
  import opened MaskFile

  /** A 2x1 image shifted right by 3 bits: each byte is divided by 8. */
  lemma ShiftRightByThreeExample()
    ensures ShiftImage(Some([10, 20, 30, 40, 50, 60]), 2, 1, 3, true) == Some([1, 2, 3, 5, 6, 7])
  {
    var r := ShiftImage(Some([10, 20, 30, 40, 50, 60]), 2, 1, 3, true).value;
    assert r[0] == 1 && r[1] == 2 && r[2] == 3 && r[3] == 5 && r[4] == 6 && r[5] == 7;
    assert r == [1, 2, 3, 5, 6, 7];
  }

  /** A 1x1 mask laid over a 2x1 image at offset 0: one triple of unclamped sums. */
  lemma MaskOnePixelExample()
    ensures MaskAndSave([5, 5, 5, 5, 5, 5], 2, 1, [1, 2, 3], 1, 1, 0, true)
            == Some([Numeral(0), Numeral(6), Numeral(7), Numeral(8)])
  {
    var file := MaskAndSave([5, 5, 5, 5, 5, 5], 2, 1, [1, 2, 3], 1, 1, 0, true).value;
    assert |file| == 4 && file[0] == Numeral(0);
    assert file[1] == Numeral(6) && file[2] == Numeral(7) && file[3] == Numeral(8);
    assert file == [Numeral(0), Numeral(6), Numeral(7), Numeral(8)];
  }

  /** An empty mask reads no image byte, whatever the offset: the file holds the offset alone. */
  lemma MaskEmptyExample()
    ensures MaskAndSave([], 0, 0, [], 0, 0, 15, true) == Some([Numeral(15)])
    ensures MaskAndSave([1, 2, 3], 1, 1, [], 0, 0, -1, true) == Some([Numeral(-1)])
  {
  }

  /** Reading the file `2 / 1 2 3 / 4 5 6`: seed 2 and two pixels. */
  lemma LoadTwoPixelsExample()
    ensures LoadSeedMasking(Some([Numeral(2), Numeral(1), Numeral(2), Numeral(3), Numeral(4), Numeral(5), Numeral(6)]), 0)
            == Some(Masking(2, 2, [1, 2, 3, 4, 5, 6]))
  {
    var tokens := [Numeral(2), Numeral(1), Numeral(2), Numeral(3), Numeral(4), Numeral(5), Numeral(6)];
    LoadDropsPartialTriple(tokens, 0);
    var loaded := LoadSeedMasking(Some(tokens), 0).value;
    assert loaded.data == [1, 2, 3, 4, 5, 6];
  }

  /**
   A stray field after the last triple is ignored, and a bad seed field stops
   the read at once: a non-numeral stores 0, an out-of-range numeral the
   nearest bound.
   */
  lemma LoadIrregularFilesExample()
    ensures LoadSeedMasking(Some([Numeral(7), Numeral(1), Numeral(2), Numeral(3), Numeral(9)]), 0)
            == Some(Masking(7, 1, [1, 2, 3]))
    ensures LoadSeedMasking(Some([Word, Numeral(1), Numeral(2), Numeral(3)]), 5)
            == Some(Masking(0, 0, []))
    ensures LoadSeedMasking(Some([Numeral(0x1_0000_0000), Numeral(1), Numeral(2), Numeral(3)]), 5)
            == Some(Masking(IntMax, 0, []))
    ensures LoadSeedMasking(Some([]), 5) == Some(Masking(5, 0, []))
  {
    var tokens := [Numeral(7), Numeral(1), Numeral(2), Numeral(3), Numeral(9)];
    LoadDropsPartialTriple(tokens, 0);
    var loaded := LoadSeedMasking(Some(tokens), 0).value;
    assert loaded.data == [1, 2, 3];
  }
}

=== FILE: wrappers.dfy ===
/** The nullable pointers of the source, as an explicit option. */
module Wrappers {

  /** `None` stands for a null pointer (or an absent file), `Some` for a present value. */
  datatype Option<+T> = None | Some(value: T)
}
